=== FILE: README.md ===
# Employee management: a Dafny model of the employee variants and the Company store

The system keeps the employees of a company in a shared JSON file. There are
three kinds of employee:

- a full-time employee, paid a monthly salary;
- a part-time employee, paid an hourly rate for the hours worked in a month;
- a manager, who is a full-time employee with a bonus.

Every amount is validated when it is set. Each employee computes its salary and
serialises itself to a flat record, and a `Type` field in that record names
the variant. A `Company` holds a mapping from employee id to employee. It loads
its own slice of the shared document when constructed. It rewrites the whole
document after every successful add or remove, and replaces only its own
slice when it does.

The model has four modules:

- `Wrappers` (`wrappers.dfy`): `Option` and `Result`.
- `Employees` (`employees.dfy`): the employee variants as one closed datatype.
  It holds the validating constructors, `Salary`, `ToRecord` (the source's
  `to_dict`) and `FromRecord`, the loader's rebuild of an employee from a
  record by dispatching on `Type`.
- `CompanyStore` (`company.dfy`): the company, with load (`Load`, `Open`),
  save (`Save`), `AddEmployee`, `RemoveEmployee`, `Find` and the payroll.
- `Scenarios` (`scenarios.dfy`): what a caller sees across operations and
  reloads. This includes a two-company isolation example, a three-employee
  payroll that totals 131000, and two holders of one company overwriting each
  other's saves.

Modelling decisions:

- **The data file.** The file is a parsed value of type `Disk`, which is
  `Option<Document>`. `None` is a missing file, which the source meets as
  `FileNotFoundError`.
- **The document.** A `Document` maps company name to `Partition`.
- **The partition.** One company's slice is a sequence of (employee id,
  record) pairs in document order. It is a sequence and not a map because
  load depends on that order:
  - a later record with the same `Employee_id` replaces an earlier one in
    place;
  - the first record that raises aborts the whole load.
- **Records.** A record is a `map<string, Value>`. A `Value` is a JSON string
  or number.
- **The employee mapping.** The source's insertion-ordered dict, keyed by each
  employee's own id, becomes a `seq<Employee>`. The store keeps its ids
  distinct (`Inv`). Load keys each employee by the `Employee_id` inside its
  record. It never reads the slice's own keys.
- **Constructors take `Value` amounts.** The source does not check argument
  types, so the setters behave as follows:
  - a negative number raises `ValueError` with the setter's message;
  - text raises `TypeError`, because `value >= 0` fails on a string;
  - salary is checked before bonus, and rate before hours, so the first bad
    amount is the error reported.
  The hours setter reuses the message "Hourly rate cannot be negative.", as
  the source does.
- **Mutating operations.** Each returns a `Step`: the boolean answer, the
  company afterwards and the file afterwards. A refused add or remove returns
  the file unchanged, because the source does not save in that case.

The source recovers from nothing but a missing file:

- **Missing `Type`.** A record without a `Type` field raises `KeyError` and
  aborts the load (`CompanyStore.LoadFailsOnMissingType`). It is not skipped.
  Only a `Type` that is present but not one of the three variant tags is
  skipped.
- **Malformed file.** No malformed-document recovery exists. Load and save
  catch only a missing file. A file that is not valid JSON, or whose top level
  is not an object, makes the source raise. The model's documents are
  well-formed by construction (see Left out).

## Model

| member | source | states |
|---|---|---|
| `Employees.SetAmount` | Emp_Management_Systm.py:48-52 | the amount setter accepts exactly the non-negative numbers and stores them unchanged; a negative number raises ValueError with the setter's message, text raises TypeError |
| `Employees.NewFullTime` | Emp_Management_Systm.py:39-52 | construction succeeds if and only if the salary is a non-negative number, and then holds exactly the given fields; otherwise it yields no employee and raises "Salary cannot be negative." (or TypeError for text) |
| `Employees.NewPartTime` | Emp_Management_Systm.py:66-92 | succeeds if and only if rate and hours are both non-negative numbers, storing them unchanged; a bad rate is reported before a bad hours value, and both use the message "Hourly rate cannot be negative." |
| `Employees.NewManager` | Emp_Management_Systm.py:110-124 | succeeds if and only if salary and bonus are both non-negative numbers, storing them unchanged; the inherited salary check runs before the bonus check |
| `Employees.Salary` | Emp_Management_Systm.py:24-26 | every variant computes a salary, and an employee whose amounts passed validation never earns a negative salary |
| `Employees.FullTimeSalary` | Emp_Management_Systm.py:54-55 | a constructed full-time employee earns exactly the monthly salary it was given |
| `Employees.PartTimeSalary` | Emp_Management_Systm.py:94-95 | a constructed part-time employee earns exactly its hourly rate times its hours per month |
| `Employees.ManagerSalary` | Emp_Management_Systm.py:126-127 | a constructed manager earns exactly its monthly salary plus its bonus |
| `Employees.ManagerSalaryExtendsBase` | Emp_Management_Systm.py:126-127 | a manager's salary is its full-time base's salary plus the bonus, so it is never below that base when valid |
| `Employees.ToRecord` | Emp_Management_Systm.py:31-139 | every record carries Employee_id, Name and Department from the employee; Type is "Full Time", "Part Time" or "Manager" by variant; the variant fields and no others are present, holding the employee's amounts |
| `Employees.ManagerRecordExtendsBase` | Emp_Management_Systm.py:133-139 | a manager's record is its full-time base's record with Bonus added and Type overridden to "Manager" |
| `Employees.Field` | Emp_Management_Systm.py:154-177 | reading a record field succeeds exactly when the field is present, and raises KeyError naming it otherwise |
| `Employees.FromRecord` | Emp_Management_Systm.py:153-179 | a record without Type raises KeyError; a Type other than the three variant tags is skipped; a rebuilt employee is valid, of the variant its Type names, with the record's id, name and department |
| `Employees.FromRecordKeepsAmounts` | Emp_Management_Systm.py:155-177 | a record whose Type names a variant is never skipped, and a rebuilt employee's salary, rate, hours and bonus are exactly the record's amount fields |
| `Employees.FromRecordAccepts` | Emp_Management_Systm.py:155-177 | a record whose Type names a variant is accepted exactly when Employee_id, Name and Department are present as text and that variant's amount fields are present as non-negative numbers; any other key is ignored |
| `Employees.RecordRoundTrip` | Emp_Management_Systm.py:153-177 | rebuilding a valid employee from its own record gives the same variant with identical fields, hence the same salary |
| `Employees.InvalidRecordRaises` | Emp_Management_Systm.py:153-177 | an employee holding a negative amount does not survive the round trip: rebuilding it from its record raises ValueError |
| `CompanyStore.Upsert` | Emp_Management_Systm.py:180-180 | a new id is appended at the end; the ids become the old ids plus the new one; distinct ids and validity are kept |
| `CompanyStore.UpsertInPlace` | Emp_Management_Systm.py:180-180 | storing under an id already present keeps the mapping's length and order and replaces only that id's entry |
| `CompanyStore.LoadRecords` | Emp_Management_Systm.py:153-180 | loading a slice's records one by one keeps the ids distinct and every employee valid |
| `CompanyStore.Load` | Emp_Management_Systm.py:148-183 | a missing file or a company absent from the document loads no employees; any successful load has distinct ids and only valid employees |
| `CompanyStore.Open` | Emp_Management_Systm.py:142-146 | constructing the store loads its slice; the result satisfies the store invariant, and a missing file gives an empty company |
| `CompanyStore.Serialise` | Emp_Management_Systm.py:192-194 | the saved slice has one entry per employee, in mapping order, keyed by the employee's id and holding its record |
| `CompanyStore.Save` | Emp_Management_Systm.py:185-196 | save puts this company's serialised employees under its name; every other company's slice is kept unchanged and no other company appears; a missing file counts as an empty document |
| `CompanyStore.Find` | Emp_Management_Systm.py:212-213 | lookup finds an employee exactly when the id is stored, and what it finds is stored under that id |
| `CompanyStore.AddEmployee` | Emp_Management_Systm.py:198-203 | returns false exactly when the id is present, and then leaves the company and the file unchanged; otherwise it inserts, saves, grows the store by one, appends the new employee at the end of the mapping, makes find return it, changes no other id's lookup, and keeps the invariant |
| `CompanyStore.RemoveAt` | Emp_Management_Systm.py:207-207 | deleting one entry keeps every other employee in its original order (position by position), adds none, and keeps distinct ids and validity |
| `CompanyStore.RemoveEmployee` | Emp_Management_Systm.py:205-210 | returns false exactly when the id is absent, and then leaves the company and the file unchanged; otherwise it deletes only that employee, keeping the others in their order (so the saved slice keeps its order too), saves, and afterwards find on that id returns nothing |
| `CompanyStore.Payroll` | Emp_Management_Systm.py:215-216 | the left-to-right sum of the salaries is never negative for valid employees |
| `CompanyStore.CalculateTotalPayroll` | Emp_Management_Systm.py:215-216 | the loop total equals the sum of the individual salaries, which is 0 for an empty store and non-negative for a store that keeps its invariant |
| `CompanyStore.PayrollAppend` | Emp_Management_Systm.py:215-216 | the payroll of two groups together is the sum of their payrolls |
| `CompanyStore.PayrollAfterAdd` | Emp_Management_Systm.py:198-216 | adding an id not yet stored succeeds and raises the total payroll by exactly the new employee's salary |
| `CompanyStore.PayrollAfterRemove` | Emp_Management_Systm.py:205-216 | removing a stored id succeeds and lowers the total payroll by exactly the removed employee's salary |
| `CompanyStore.LoadSerialised` | Emp_Management_Systm.py:153-194 | loading a slice written by save rebuilds exactly the saved employees, in order, after those already loaded |
| `CompanyStore.OpenAfterSave` | Emp_Management_Systm.py:142-196 | reopening a company from the document its own save wrote gives back the same company, every employee with identical fields |
| `CompanyStore.LoadIsolation` | Emp_Management_Systm.py:185-196 | after one company saves, every other company opens exactly as before |
| `CompanyStore.LoadSkipsUnknown` | Emp_Management_Systm.py:155-179 | a record whose Type is present but unknown is skipped, and the slice loads as if that record were absent |
| `CompanyStore.LoadFailsOnMissingType` | Emp_Management_Systm.py:153-154 | a record with no Type aborts the whole load with KeyError, once the records before it have loaded |
| `CompanyStore.LoadFailsOnBadRecord` | Emp_Management_Systm.py:153-177 | any record that raises (a missing field, a non-text identity, a negative or text amount), once the records before it have loaded, aborts the whole load with that record's error |
| `Scenarios.AddThenReopen` | Emp_Management_Systm.py:198-203 | after a successful add, reopening from the written file gives the updated company, and find returns the added employee unchanged |
| `Scenarios.RemoveThenReopen` | Emp_Management_Systm.py:205-210 | after a successful remove, reopening from the written file gives the updated company without that id |
| `Scenarios.OtherCompanySurvivesAdd` | Emp_Management_Systm.py:185-203 | with two companies in one file, an add to one leaves the other reloading exactly its saved employees |
| `Scenarios.OtherCompanySurvivesRemove` | Emp_Management_Systm.py:185-210 | with two companies in one file, a remove from one leaves the other reloading exactly its saved employees |
| `Scenarios.StaleHolderOverwrites` | Emp_Management_Systm.py:185-203 | two holders of one company both add a fresh employee; the second save writes its whole mapping over the first one's slice, so reopening finds only the second holder's employee |
| `Scenarios.AddFresh` | Emp_Management_Systm.py:198-216 | an add of an id not yet stored succeeds, appends the employee at the end, adds exactly its id, and raises the payroll by its salary |
| `Scenarios.PayrollOfThreeAdds` | Emp_Management_Systm.py:198-216 | three adds with distinct ids to an empty company all succeed, and the payroll is the sum of the three salaries |
| `Scenarios.ThreeVariantPayroll` | Emp_Management_Systm.py:39-216 | Alice (50000), Bob (200 times 80) and Cara (60000 plus 5000) are all accepted, and the total payroll is 131000 |
| `Scenarios.UnknownTypeSkipped` | Emp_Management_Systm.py:153-180 | a slice with an unknown-Type record ahead of a valid record loads exactly the valid employee, without raising |

## Left out

- File I/O is not modelled: `open`, `json.load`, `json.dump` and the 4-space indentation. The file is the parsed `Disk` value passed in and returned. A missing file is `None`, and writing the file is returning `Some(document)`.
- Malformed files are not modelled. Load raises on invalid JSON, on a top level that is not an object, on a slice that is not an object and on a record that is not an object. Save raises only on the first two: it never reads a slice or a record, so it writes another company's malformed slice back unchanged and overwrites this company's.
- Record values other than strings and numbers are not modelled: JSON `null`, booleans, arrays and nested objects.
- Employees.FromRecord: raises a model-only `NotText` error when Employee_id, Name or Department is not a string. The model raises it because its identities are strings; the source would instead build an employee with a non-text identity.
- Employees.SetAmount: raises `TypeError` without the interpreter's message text.
- Amounts are not IEEE floats. They are exact `real`s, so the rounding of `rate * hours` is not modelled. Neither is infinity: every setter rejects NaN (`nan >= 0` is false), but it accepts +infinity, and an infinite rate times zero hours gives a NaN salary.
- Mutating an existing employee is not modelled. In the source, employees are mutable objects held by reference, and the amount setters also run on an existing object. `find_employee` returns the stored object itself, so a caller can assign a new amount to it. An accepted assignment changes the in-memory payroll without saving; a rejected one keeps the old value. The model's employees are immutable values and its setter runs only at construction, so it cannot express this.
- A slice holding the same key twice is not modelled as the source would see it. A parsed JSON object cannot hold a key twice: `json.load` keeps the last value, at the first occurrence's position. The model's `Partition` is a list of pairs and does not forbid a repeated key. For such a document the model loads both records, where the source loads only the last. Save never writes a repeated key, so this affects only documents written by hand.
- Presentation and console plumbing are not modelled, because they are printing only: `display_details`, `display_all_employees`, `generate_payroll_report`, `welcome_banner`, `greet_by_time` and the interactive `main` loop. `get_employees` only returns the mapping, which is the `employees` field of `Company`.
- The module-level `company_name` global and the clock-based greeting are not modelled. They are shell state, and the company name is a parameter instead.
- Concurrent writers to the shared file are not modelled: the model is sequential, so it cannot interleave one save's read of the file with another writer's write. A stale company overwriting a newer slice can still be expressed, and the model behaves as the source does (`Scenarios.StaleHolderOverwrites`).

=== FILE: company.dfy ===
/** The Company store: one company's employees, kept in memory and synchronised
    with a shared document that holds every company's slice side by side. File
    reads and writes become pure functions of the parsed document. */
module CompanyStore {
  import opened Wrappers
  import opened Employees

  /** One company's slice of the document: a JSON object from employee id to
      record, in document order (load's outcome depends on that order). */
  type Partition = seq<(string, Record)>

  /** The parsed data file: company name to that company's slice. */
  type Document = map<string, Partition>

  /** What the data file holds: `None` when the file does not exist. */
  type Disk = Option<Document>

  // ---------------------------------------------------------------------
  // The in-memory employee mapping

  /** The employee mapping: a Python dict from `employee_id` to employee is
      an insertion-ordered sequence of employees, keyed by their own ids. */
  function Ids(emps: seq<Employee>): set<string> {
    set i | 0 <= i < |emps| :: emps[i].id
  }

  predicate DistinctIds(emps: seq<Employee>) {
    forall i, j :: 0 <= i < j < |emps| ==> emps[i].id != emps[j].id
  }

  predicate AllValid(emps: seq<Employee>) {
    forall i :: 0 <= i < |emps| ==> Valid(emps[i])
  }

  /** The ids of a non-empty mapping are its first id and the rest's. */
  lemma IdsCons(emps: seq<Employee>)
    requires |emps| > 0
    ensures Ids(emps) == {emps[0].id} + Ids(emps[1..])
  {
  }

  /** The position of the employee keyed `id`, if any. */
  function IndexOf(emps: seq<Employee>, id: string): (r: Option<nat>)
    ensures r.None? <==> id !in Ids(emps)
    ensures r.Some? ==> r.value < |emps| && emps[r.value].id == id
    ensures r.Some? ==> forall j :: 0 <= j < r.value ==> emps[j].id != id
  {
    if |emps| == 0 then None
    else if emps[0].id == id then Some(0)
    else
      match IndexOf(emps[1..], id)
      case None =>
        IdsCons(emps);
        None
      case Some(i) =>
        assert emps[1..][i] == emps[i + 1];
        Some(i + 1)
  }

  /** `employees[e.employee_id] = e`: an existing key keeps its position and
      takes the new employee; a new key goes at the end. */
  function Upsert(emps: seq<Employee>, e: Employee): (r: seq<Employee>)
    ensures Ids(r) == Ids(emps) + {e.id}
    ensures e in r
    ensures forall k :: k in r ==> k in emps || k == e
    ensures DistinctIds(emps) ==> DistinctIds(r)
    ensures AllValid(emps) && Valid(e) ==> AllValid(r)
    ensures e.id !in Ids(emps) ==> r == emps + [e]
  {
    match IndexOf(emps, e.id)
    case Some(i) =>
      var r := emps[i := e];
      assert forall j :: 0 <= j < |r| ==> r[j].id == emps[j].id;
      assert Ids(r) == Ids(emps);
      r
    case None =>
      var r := emps + [e];
      assert Ids(r) == Ids(emps) + {e.id} by {
        forall k | k in Ids(r) ensures k in Ids(emps) + {e.id} {
          var j :| 0 <= j < |r| && r[j].id == k;
        }
        assert r[|emps|] == e;
        forall k | k in Ids(emps) ensures k in Ids(r) {
          var j :| 0 <= j < |emps| && emps[j].id == k;
          assert r[j] == emps[j];
        }
      }
      assert forall j :: 0 <= j < |emps| ==> emps[j].id in Ids(emps);
      r
  }

  /** Storing under an id already present keeps the mapping's length and
      order and replaces only that id's entry. */
  lemma UpsertInPlace(emps: seq<Employee>, e: Employee)
    requires DistinctIds(emps) && e.id in Ids(emps)
    ensures |Upsert(emps, e)| == |emps|
    ensures forall j :: 0 <= j < |emps| ==> Upsert(emps, e)[j] == if emps[j].id == e.id then e else emps[j]
  {
  }

  // ---------------------------------------------------------------------
  // Persistence: load

  /** Rebuild a slice's records in order into `acc`. A record with an unknown
      discriminator is skipped; the first record that raises aborts the load. */
  function LoadRecords(part: Partition, acc: seq<Employee>): (r: Result<seq<Employee>, Error>)
    ensures r.Success? && DistinctIds(acc) ==> DistinctIds(r.value)
    ensures r.Success? && AllValid(acc) ==> AllValid(r.value)
    decreases |part|
  {
    if |part| == 0 then Success(acc)
    else
      var rebuilt :- FromRecord(part[0].1);
      match rebuilt
      case None => LoadRecords(part[1..], acc)
      case Some(e) => LoadRecords(part[1..], Upsert(acc, e))
  }

  /** _load_data: a missing file or a missing company gives no employees;
      otherwise the company's records are rebuilt, keyed by the id each
      record holds (the slice's own keys are not consulted). */
  function Load(disk: Disk, name: string): (r: Result<seq<Employee>, Error>)
    ensures disk.None? ==> r == Success([])
    ensures disk.Some? && name !in disk.value ==> r == Success([])
    ensures r.Success? ==> DistinctIds(r.value) && AllValid(r.value)
  {
    match disk
    case None => Success([])
    case Some(doc) => LoadRecords(if name in doc then doc[name] else [], [])
  }

  // ---------------------------------------------------------------------
  // The company

  datatype Company = Company(name: string, employees: seq<Employee>)

  /** What the store maintains: each employee under its own id once, and
      every amount validated. */
  predicate Inv(c: Company) {
    DistinctIds(c.employees) && AllValid(c.employees)
  }

  /** Company(name): construct the store by loading its slice. */
  function Open(disk: Disk, name: string): (r: Result<Company, Error>)
    ensures r.Success? ==> r.value.name == name && Inv(r.value)
    ensures disk.None? ==> r == Success(Company(name, []))
  {
    var emps :- Load(disk, name);
    Success(Company(name, emps))
  }

  // ---------------------------------------------------------------------
  // Persistence: save

  /** `{emp_id: emp.to_dict() for ...}` over the mapping, in its order. */
  function Serialise(emps: seq<Employee>): (r: Partition)
    ensures |r| == |emps|
    ensures forall i :: 0 <= i < |r| ==> r[i].0 == emps[i].id && r[i].1 == ToRecord(emps[i])
  {
    if |emps| == 0 then [] else [(emps[0].id, ToRecord(emps[0]))] + Serialise(emps[1..])
  }

  /** _save_data: re-read the document (empty if the file is missing), replace
      this company's slice with the current mapping, and write it all back. */
  function Save(disk: Disk, c: Company): (d: Document)
    ensures c.name in d && d[c.name] == Serialise(c.employees)
    ensures forall n :: n != c.name ==> (n in d <==> disk.Some? && n in disk.value)
    ensures forall n :: n in d && n != c.name ==> disk.Some? && d[n] == disk.value[n]
  {
    var doc := if disk.Some? then disk.value else map[];
    doc[c.name := Serialise(c.employees)]
  }

  // ---------------------------------------------------------------------
  // Operations

  /** The outcome of a mutating operation: its boolean answer, the company
      afterwards, and the data file afterwards. */
  datatype Step = Step(ok: bool, company: Company, disk: Disk)

  /** find_employee: the employee stored under `id`, if any. */
  function Find(c: Company, id: string): (r: Option<Employee>)
    ensures r.None? <==> id !in Ids(c.employees)
    ensures r.Some? ==> r.value in c.employees && r.value.id == id
  {
    match IndexOf(c.employees, id)
    case None => None
    case Some(i) => Some(c.employees[i])
  }

  /** add_employee: a duplicate id is refused without saving; otherwise the
      employee is inserted, the document saved, and `true` returned. */
  function AddEmployee(c: Company, disk: Disk, e: Employee): (r: Step)
    ensures r.ok <==> Find(c, e.id).None?
    ensures !r.ok ==> r.company == c && r.disk == disk
    ensures r.ok ==> r.company.name == c.name && r.disk == Some(Save(disk, r.company))
    ensures r.ok ==> r.company.employees == c.employees + [e]
    ensures r.ok ==> Find(r.company, e.id) == Some(e)
    ensures forall id :: id != e.id ==> Find(r.company, id) == Find(c, id)
    ensures Inv(c) && Valid(e) ==> Inv(r.company)
  {
    if e.id in Ids(c.employees) then Step(false, c, disk)
    else
      var emps := Upsert(c.employees, e);
      var c' := Company(c.name, emps);
      forall id ensures IndexOf(emps, id) == if id == e.id then Some(|c.employees|) else IndexOf(c.employees, id) {
        IndexOfAppend(c.employees, e, id);
      }
      Step(true, c', Some(Save(disk, c')))
  }

  /** Appending an employee moves no existing key: ids already present keep
      their position, the new id lands at the end, and no other id appears. */
  lemma {:induction false} IndexOfAppend(emps: seq<Employee>, e: Employee, id: string)
    ensures IndexOf(emps + [e], id) ==
      if id in Ids(emps) then IndexOf(emps, id)
      else if e.id == id then Some(|emps|)
      else None
  {
    var s := emps + [e];
    if |emps| == 0 {
      assert s == [e];
      assert s[1..] == [];
    } else {
      assert s[0] == emps[0];
      assert s[1..] == emps[1..] + [e];
      IdsCons(emps);
      if emps[0].id != id {
        IndexOfAppend(emps[1..], e, id);
      }
    }
  }

  /** `del employees[key]` at the key's position: the others keep their order. */
  function RemoveAt(emps: seq<Employee>, i: nat): (r: seq<Employee>)
    requires i < |emps|
    ensures |r| == |emps| - 1
    ensures forall j :: 0 <= j < |r| ==> r[j] == if j < i then emps[j] else emps[j + 1]
    ensures forall k :: k in r ==> k in emps
    ensures forall k :: k in emps && k != emps[i] ==> k in r
    ensures DistinctIds(emps) ==> DistinctIds(r) && emps[i].id !in Ids(r)
    ensures AllValid(emps) ==> AllValid(r)
  {
    var r := emps[..i] + emps[i + 1..];
    assert forall j :: 0 <= j < i ==> r[j] == emps[j];
    assert forall j :: i <= j < |r| ==> r[j] == emps[j + 1];
    forall k | k in emps && k != emps[i] ensures k in r {
      var j :| 0 <= j < |emps| && emps[j] == k;
      if j < i { assert r[j] == k; } else { assert r[j - 1] == k; }
    }
    r
  }

  /** remove_employee: an absent id answers `false` and saves nothing; a
      present one is deleted, the document saved, and `true` returned. */
  function RemoveEmployee(c: Company, disk: Disk, id: string): (r: Step)
    ensures r.ok <==> Find(c, id).Some?
    ensures !r.ok ==> r.company == c && r.disk == disk
    ensures r.ok ==> r.company.name == c.name && r.disk == Some(Save(disk, r.company))
    ensures r.ok ==> |r.company.employees| == |c.employees| - 1
    ensures r.ok ==> r.company.employees == RemoveAt(c.employees, IndexOf(c.employees, id).value)
    ensures forall k :: k in r.company.employees ==> k in c.employees
    ensures forall k :: k in c.employees && k.id != id ==> k in r.company.employees
    ensures DistinctIds(c.employees) ==> Find(r.company, id).None?
    ensures Inv(c) ==> Inv(r.company)
  {
    match IndexOf(c.employees, id)
    case None => Step(false, c, disk)
    case Some(i) =>
      var c' := Company(c.name, RemoveAt(c.employees, i));
      Step(true, c', Some(Save(disk, c')))
  }

  // ---------------------------------------------------------------------
  // Payroll

  /** The sum of the employees' salaries, accumulated left to right from 0
      as Python's `sum` does. */
  function Payroll(emps: seq<Employee>): (r: real)
    ensures AllValid(emps) ==> r >= 0.0
    decreases |emps|
  {
    if |emps| == 0 then 0.0 else Payroll(emps[..|emps| - 1]) + Salary(emps[|emps| - 1])
  }

  /** calculate_total_payroll: one pass over the mapping's values. */
  method CalculateTotalPayroll(c: Company) returns (total: real)
    ensures total == Payroll(c.employees)
    ensures |c.employees| == 0 ==> total == 0.0
    ensures Inv(c) ==> total >= 0.0
  {
    total := 0.0;
    var i := 0;
    while i < |c.employees|
      invariant 0 <= i <= |c.employees|
      invariant total == Payroll(c.employees[..i])
    {
      assert c.employees[..i + 1][..i] == c.employees[..i];
      total := total + Salary(c.employees[i]);
      i := i + 1;
    }
    assert c.employees[..i] == c.employees;
  }

  /** The payroll of two groups together is the sum of their payrolls. */
  lemma {:induction false} PayrollAppend(a: seq<Employee>, b: seq<Employee>)
    ensures Payroll(a + b) == Payroll(a) + Payroll(b)
    decreases |b|
  {
    if |b| == 0 {
      assert a + b == a;
    } else {
      var b' := b[..|b| - 1];
      assert (a + b)[..|a + b| - 1] == a + b';
      assert (a + b)[|a + b| - 1] == b[|b| - 1];
      PayrollAppend(a, b');
    }
  }

  /** A single employee's payroll is its salary. */
  lemma PayrollSingle(e: Employee)
    ensures Payroll([e]) == Salary(e)
  {
    assert [e][..0] == [];
  }

  /** A successful add raises the payroll by exactly the new salary. */
  lemma PayrollAfterAdd(c: Company, disk: Disk, e: Employee)
    requires Find(c, e.id).None?
    ensures AddEmployee(c, disk, e).ok
    ensures Payroll(AddEmployee(c, disk, e).company.employees) == Payroll(c.employees) + Salary(e)
  {
    var emps := AddEmployee(c, disk, e).company.employees;
    assert emps == c.employees + [e];
    PayrollAppend(c.employees, [e]);
    PayrollSingle(e);
  }

  /** Taking one employee out of a group lowers its payroll by that
      employee's salary. */
  lemma PayrollWithout(s: seq<Employee>, i: nat)
    requires i < |s|
    ensures Payroll(RemoveAt(s, i)) == Payroll(s) - Salary(s[i])
  {
    assert RemoveAt(s, i) == s[..i] + s[i + 1..];
    PayrollAppend(s[..i], s[i + 1..]);
    PayrollSplit(s, i);
  }

  /** The payroll splits around any position: before, at, and after it. */
  lemma PayrollSplit(s: seq<Employee>, i: nat)
    requires i < |s|
    ensures Payroll(s) == Payroll(s[..i]) + Salary(s[i]) + Payroll(s[i + 1..])
  {
    var front, x, back := s[..i], s[i], s[i + 1..];
    assert s == (front + [x]) + back;
    PayrollAppend(front + [x], back);
    PayrollAppend(front, [x]);
    PayrollSingle(x);
  }

  /** A successful remove lowers the payroll by exactly the removed salary. */
  lemma PayrollAfterRemove(c: Company, disk: Disk, id: string)
    requires Find(c, id).Some?
    ensures RemoveEmployee(c, disk, id).ok
    ensures Payroll(RemoveEmployee(c, disk, id).company.employees) ==
      Payroll(c.employees) - Salary(Find(c, id).value)
  {
    var i := IndexOf(c.employees, id).value;
    PayrollWithout(c.employees, i);
  }

  // ---------------------------------------------------------------------
  // Load and save together

  /** Loading a serialised mapping after `acc` rebuilds exactly that mapping,
      in order, when no id repeats. */
  lemma {:induction false} LoadSerialised(emps: seq<Employee>, acc: seq<Employee>)
    requires AllValid(emps) && DistinctIds(acc + emps)
    ensures LoadRecords(Serialise(emps), acc) == Success(acc + emps)
    decreases |emps|, 1
  {
    if |emps| == 0 {
      LoadSerialisedNil(emps, acc);
    } else {
      LoadSerialisedCons(emps, acc);
    }
  }

  /** The step case of `LoadSerialised`: the first record rebuilds the first
      employee under a fresh id, and the rest loads after it. */
  lemma {:induction false} LoadSerialisedCons(emps: seq<Employee>, acc: seq<Employee>)
    requires |emps| > 0 && AllValid(emps) && DistinctIds(acc + emps)
    ensures LoadRecords(Serialise(emps), acc) == Success(acc + emps)
    decreases |emps|, 0
  {
    var e := emps[0];
    FirstIdFresh(acc, emps);
    LoadSerialisedStep(emps, acc);
    assert (acc + [e]) + emps[1..] == acc + emps;
    LoadSerialised(emps[1..], acc + [e]);
  }

  /** One step of the load loop over a serialised mapping: the first record
      rebuilds its employee, which joins the end of the mapping. */
  lemma LoadSerialisedStep(emps: seq<Employee>, acc: seq<Employee>)
    requires |emps| > 0 && Valid(emps[0]) && emps[0].id !in Ids(acc)
    ensures LoadRecords(Serialise(emps), acc) == LoadRecords(Serialise(emps[1..]), acc + [emps[0]])
  {
  }

  /** The base case of LoadSerialised: an empty mapping loads nothing. */
  lemma LoadSerialisedNil(emps: seq<Employee>, acc: seq<Employee>)
    requires |emps| == 0
    ensures LoadRecords(Serialise(emps), acc) == Success(acc + emps)
  {
    assert acc + emps == acc;
  }

  /** With no id repeated across `acc + emps`, the first of `emps` is not in `acc`. */
  lemma FirstIdFresh(acc: seq<Employee>, emps: seq<Employee>)
    requires |emps| > 0 && DistinctIds(acc + emps)
    ensures emps[0].id !in Ids(acc)
  {
    forall j | 0 <= j < |acc| ensures acc[j].id != emps[0].id {
      assert (acc + emps)[j] == acc[j];
      assert (acc + emps)[|acc|] == emps[0];
    }
  }

  /** Store round trip: reopening a company from the document its own save
      wrote gives back the same company, every employee with identical
      fields and in the same order. */
  lemma OpenAfterSave(disk: Disk, c: Company)
    requires Inv(c)
    ensures Open(Some(Save(disk, c)), c.name) == Success(c)
  {
    LoadSerialised(c.employees, []);
    assert [] + c.employees == c.employees;
  }

  /** Partition isolation: saving one company leaves what every other
      company loads unchanged. */
  lemma LoadIsolation(disk: Disk, c: Company, other: string)
    requires other != c.name
    ensures Open(Some(Save(disk, c)), other) == Open(disk, other)
  {
  }

  /** A record with an unrecognised discriminator is skipped: the slice loads
      as if the record were not there. */
  lemma {:induction false} LoadSkipsUnknown(pre: Partition, key: string, rec: Record, post: Partition, acc: seq<Employee>)
    requires TypeField in rec && !KnownTag(rec[TypeField])
    ensures LoadRecords(pre + [(key, rec)] + post, acc) == LoadRecords(pre + post, acc)
    decreases |pre|
  {
    var whole := pre + [(key, rec)] + post;
    if |pre| == 0 {
      assert whole == [(key, rec)] + post;
      assert whole[1..] == post;
      assert pre + post == post;
    } else {
      assert whole[0] == pre[0] && (pre + post)[0] == pre[0];
      assert whole[1..] == pre[1..] + [(key, rec)] + post;
      assert (pre + post)[1..] == pre[1..] + post;
      match FromRecord(pre[0].1)
      case Failure(_) =>
      case Success(None) => LoadSkipsUnknown(pre[1..], key, rec, post, acc);
      case Success(Some(e)) => LoadSkipsUnknown(pre[1..], key, rec, post, Upsert(acc, e));
    }
  }

  /** A record with no discriminator is not skipped: once the records before
      it have loaded, it aborts the whole load with KeyError. */
  lemma {:induction false} LoadFailsOnMissingType(pre: Partition, key: string, rec: Record, post: Partition, acc: seq<Employee>)
    requires TypeField !in rec
    requires LoadRecords(pre, acc).Success?
    ensures LoadRecords(pre + [(key, rec)] + post, acc) == Failure(KeyError(TypeField))
    decreases |pre|
  {
    var whole := pre + [(key, rec)] + post;
    if |pre| == 0 {
      assert whole == [(key, rec)] + post;
    } else {
      assert whole[0] == pre[0];
      assert whole[1..] == pre[1..] + [(key, rec)] + post;
      match FromRecord(pre[0].1)
      case Success(None) => LoadFailsOnMissingType(pre[1..], key, rec, post, acc);
      case Success(Some(e)) => LoadFailsOnMissingType(pre[1..], key, rec, post, Upsert(acc, e));
    }
  }

  /** Any record that raises, once the records before it have loaded, aborts
      the whole load with that record's error. */
  lemma {:induction false} LoadFailsOnBadRecord(pre: Partition, key: string, rec: Record, post: Partition, acc: seq<Employee>)
    requires FromRecord(rec).Failure?
    requires LoadRecords(pre, acc).Success?
    ensures LoadRecords(pre + [(key, rec)] + post, acc) == Failure(FromRecord(rec).error)
    decreases |pre|
  {
    var whole := pre + [(key, rec)] + post;
    if |pre| == 0 {
      assert whole == [(key, rec)] + post;
    } else {
      assert whole[0] == pre[0];
      assert whole[1..] == pre[1..] + [(key, rec)] + post;
      match FromRecord(pre[0].1)
      case Success(None) => LoadFailsOnBadRecord(pre[1..], key, rec, post, acc);
      case Success(Some(e)) => LoadFailsOnBadRecord(pre[1..], key, rec, post, Upsert(acc, e));
    }
  }
}

=== FILE: employees.dfy ===
/** The employee variants: one closed datatype in place of the
    Employee / FullTimeEmployee / PartTimeEmployee / Manager class hierarchy,
    with the validating constructors, the salary calculation, the flat record
    each variant serialises to, and the reconstruction of a variant from its
    record that the loader performs. */
module Employees {
  import opened Wrappers

  /** A scalar as it reaches a constructor or sits in a stored record. The
      source does not check argument types, so an amount read back from a
      document may be text; the model keeps JSON strings and numbers. */
  datatype Value = Str(text: string) | Num(amount: real)

  datatype Error =
    | ValueError(message: string)  // a negative amount reached a setter
    | TypeError                    // a setter compared text with 0
    | KeyError(key: string)        // the loader read a field the record lacks
    | NotText(field: string)       // an identity field of a record is not a string

  const SalaryMessage := "Salary cannot be negative."
  const RateMessage := "Hourly rate cannot be negative."
  /** The hours setter raises the hourly-rate message, as the source does. */
  const HoursMessage := "Hourly rate cannot be negative."
  const BonusMessage := "Bonus cannot be negative."

  datatype Employee =
    | FullTime(id: string, name: string, department: string, monthlySalary: real)
    | PartTime(id: string, name: string, department: string, hourlyRate: real, hoursPerMonth: real)
    | Manager(id: string, name: string, department: string, monthlySalary: real, bonus: real)

  /** Every amount an employee holds passed its setter's check. */
  predicate Valid(e: Employee) {
    match e
    case FullTime(_, _, _, salary) => salary >= 0.0
    case PartTime(_, _, _, rate, hours) => rate >= 0.0 && hours >= 0.0
    case Manager(_, _, _, salary, bonus) => salary >= 0.0 && bonus >= 0.0
  }

  predicate NonNegative(v: Value) {
    v.Num? && v.amount >= 0.0
  }

  /** The error a setter raises for a value it rejects. */
  function Rejection(v: Value, message: string): Error {
    if v.Num? then ValueError(message) else TypeError
  }

  /** The setter shared by every amount: `value >= 0` stores the value,
      anything else raises. */
  function SetAmount(v: Value, message: string): (r: Result<real, Error>)
    ensures r.Success? <==> NonNegative(v)
    ensures r.Success? ==> r.value == v.amount
    ensures r.Failure? ==> r.error == Rejection(v, message)
  {
    match v
    case Num(x) => if x >= 0.0 then Success(x) else Failure(ValueError(message))
    case Str(_) => Failure(TypeError)
  }

  /** FullTimeEmployee(...): the salary setter runs once; a rejected salary
      yields no object. */
  function NewFullTime(id: string, name: string, department: string, salary: Value): (r: Result<Employee, Error>)
    ensures r.Success? <==> NonNegative(salary)
    ensures r.Success? ==> r.value == FullTime(id, name, department, salary.amount) && Valid(r.value)
    ensures r.Failure? ==> r.error == Rejection(salary, SalaryMessage)
  {
    var s :- SetAmount(salary, SalaryMessage);
    Success(FullTime(id, name, department, s))
  }

  /** PartTimeEmployee(...): the rate setter runs before the hours setter, so
      a bad rate is the error reported when both are bad. */
  function NewPartTime(id: string, name: string, department: string, rate: Value, hours: Value): (r: Result<Employee, Error>)
    ensures r.Success? <==> NonNegative(rate) && NonNegative(hours)
    ensures r.Success? ==> r.value == PartTime(id, name, department, rate.amount, hours.amount) && Valid(r.value)
    ensures !NonNegative(rate) ==> r == Failure(Rejection(rate, RateMessage))
    ensures NonNegative(rate) && !NonNegative(hours) ==> r == Failure(Rejection(hours, HoursMessage))
  {
    var rt :- SetAmount(rate, RateMessage);
    var h :- SetAmount(hours, HoursMessage);
    Success(PartTime(id, name, department, rt, h))
  }

  /** Manager(...): the inherited salary setter runs before the bonus setter. */
  function NewManager(id: string, name: string, department: string, salary: Value, bonus: Value): (r: Result<Employee, Error>)
    ensures r.Success? <==> NonNegative(salary) && NonNegative(bonus)
    ensures r.Success? ==> r.value == Manager(id, name, department, salary.amount, bonus.amount) && Valid(r.value)
    ensures !NonNegative(salary) ==> r == Failure(Rejection(salary, SalaryMessage))
    ensures NonNegative(salary) && !NonNegative(bonus) ==> r == Failure(Rejection(bonus, BonusMessage))
  {
    var base :- NewFullTime(id, name, department, salary);
    var b :- SetAmount(bonus, BonusMessage);
    Success(Manager(id, name, department, base.monthlySalary, b))
  }

  /** The full-time employee a manager extends. */
  function Base(m: Employee): (e: Employee)
    requires m.Manager?
    ensures e.FullTime? && e.id == m.id && e.monthlySalary == m.monthlySalary
  {
    FullTime(m.id, m.name, m.department, m.monthlySalary)
  }

  /** calculate_salary, dispatched on the variant. */
  function Salary(e: Employee): (r: real)
    ensures Valid(e) ==> r >= 0.0
  {
    match e
    case FullTime(_, _, _, salary) => salary
    case PartTime(_, _, _, rate, hours) => rate * hours
    case Manager(_, _, _, salary, bonus) => salary + bonus
  }

  /** A full-time employee earns its monthly salary. */
  lemma FullTimeSalary(id: string, name: string, department: string, salary: Value)
    requires NewFullTime(id, name, department, salary).Success?
    ensures Salary(NewFullTime(id, name, department, salary).value) == salary.amount
  {
  }

  /** A part-time employee earns its hourly rate times its monthly hours. */
  lemma PartTimeSalary(id: string, name: string, department: string, rate: Value, hours: Value)
    requires NewPartTime(id, name, department, rate, hours).Success?
    ensures Salary(NewPartTime(id, name, department, rate, hours).value) == rate.amount * hours.amount
  {
  }

  /** A manager earns its monthly salary plus its bonus. */
  lemma ManagerSalary(id: string, name: string, department: string, salary: Value, bonus: Value)
    requires NewManager(id, name, department, salary, bonus).Success?
    ensures Salary(NewManager(id, name, department, salary, bonus).value) == salary.amount + bonus.amount
  {
  }

  /** A manager earns what its full-time base earns, plus the bonus. */
  lemma ManagerSalaryExtendsBase(m: Employee)
    requires m.Manager?
    ensures Salary(m) == Salary(Base(m)) + m.bonus
    ensures Valid(m) ==> Salary(m) >= Salary(Base(m))
  {
  }

  // ---------------------------------------------------------------------
  // Records (to_dict)

  /** A serialised employee: a flat JSON object. */
  type Record = map<string, Value>

  const IdField := "Employee_id"
  const NameField := "Name"
  const DepartmentField := "Department"
  const TypeField := "Type"
  const SalaryField := "Monthly_salary"
  const RateField := "Hourly_rate"
  const HoursField := "Hours_worked_per_month"
  const BonusField := "Bonus"

  const BaseTag := "Employee"
  const FullTimeTag := "Full Time"
  const PartTimeTag := "Part Time"
  const ManagerTag := "Manager"

  /** The fields every record carries. */
  const CommonFields: set<string> := {IdField, NameField, DepartmentField, TypeField}

  /** The discriminator a variant writes into its record. */
  function Tag(e: Employee): string {
    match e
    case FullTime(_, _, _, _) => FullTimeTag
    case PartTime(_, _, _, _, _) => PartTimeTag
    case Manager(_, _, _, _, _) => ManagerTag
  }

  /** Employee.to_dict: the identity fields under the abstract base's tag. */
  function BaseRecord(id: string, name: string, department: string): Record {
    map[IdField := Str(id), NameField := Str(name), DepartmentField := Str(department), TypeField := Str(BaseTag)]
  }

  /** FullTimeEmployee.to_dict: the base record plus the salary, retagged. */
  function FullTimeRecord(id: string, name: string, department: string, salary: real): Record {
    BaseRecord(id, name, department)[SalaryField := Num(salary)][TypeField := Str(FullTimeTag)]
  }

  /** to_dict, dispatched on the variant; a manager's record extends its
      full-time base's record. */
  function ToRecord(e: Employee): (r: Record)
    ensures CommonFields <= r.Keys
    ensures r[IdField] == Str(e.id) && r[NameField] == Str(e.name) && r[DepartmentField] == Str(e.department)
    ensures r[TypeField] == Str(Tag(e))
    ensures e.FullTime? ==> r.Keys == CommonFields + {SalaryField} && r[SalaryField] == Num(e.monthlySalary)
    ensures e.PartTime? ==>
      r.Keys == CommonFields + {RateField, HoursField} &&
      r[RateField] == Num(e.hourlyRate) && r[HoursField] == Num(e.hoursPerMonth)
    ensures e.Manager? ==>
      r.Keys == CommonFields + {SalaryField, BonusField} &&
      r[SalaryField] == Num(e.monthlySalary) && r[BonusField] == Num(e.bonus)
  {
    match e
    case FullTime(id, name, department, salary) =>
      FullTimeRecord(id, name, department, salary)
    case PartTime(id, name, department, rate, hours) =>
      BaseRecord(id, name, department)[RateField := Num(rate)][HoursField := Num(hours)][TypeField := Str(PartTimeTag)]
    case Manager(id, name, department, salary, bonus) =>
      FullTimeRecord(id, name, department, salary)[BonusField := Num(bonus)][TypeField := Str(ManagerTag)]
  }

  /** A manager's record is its base's record with the bonus added and the
      discriminator overridden. */
  lemma ManagerRecordExtendsBase(m: Employee)
    requires m.Manager?
    ensures ToRecord(m) == ToRecord(Base(m))[BonusField := Num(m.bonus)][TypeField := Str(ManagerTag)]
  {
  }

  // ---------------------------------------------------------------------
  // Reconstruction (the dispatch inside _load_data)

  /** `record[key]`: a missing key raises KeyError. */
  function Field(rec: Record, key: string): (r: Result<Value, Error>)
    ensures r.Success? <==> key in rec
    ensures r.Success? ==> r.value == rec[key]
    ensures r.Failure? ==> r.error == KeyError(key)
  {
    if key in rec then Success(rec[key]) else Failure(KeyError(key))
  }

  /** An identity field must be JSON text; any other value raises `NotText`
      naming the field. */
  function AsText(v: Value, field: string): (r: Result<string, Error>)
    ensures r.Success? <==> v.Str?
    ensures r.Success? ==> r.value == v.text
  {
    if v.Str? then Success(v.text) else Failure(NotText(field))
  }

  /** The `Type` values the loader rebuilds; any other value is skipped. */
  predicate KnownTag(v: Value) {
    v == Str(FullTimeTag) || v == Str(PartTimeTag) || v == Str(ManagerTag)
  }

  /** Rebuild one stored record. `Success(None)` is a record whose
      discriminator is not one of the three variant tags: the loader skips it.
      A record without a discriminator raises KeyError; a variant's fields are
      read in argument order, then its constructor validates them. */
  function FromRecord(rec: Record): (r: Result<Option<Employee>, Error>)
    ensures TypeField !in rec ==> r == Failure(KeyError(TypeField))
    ensures TypeField in rec && !KnownTag(rec[TypeField]) ==> r == Success(None)
    ensures r.Success? && r.value.Some? ==>
      var e := r.value.value;
      && Valid(e) && rec[TypeField] == Str(Tag(e))
      && IdField in rec && rec[IdField] == Str(e.id)
      && NameField in rec && rec[NameField] == Str(e.name)
      && DepartmentField in rec && rec[DepartmentField] == Str(e.department)
  {
    if TypeField !in rec then Failure(KeyError(TypeField))
    else if rec[TypeField] == Str(FullTimeTag) then
      var id :- Field(rec, IdField);
      var name :- Field(rec, NameField);
      var department :- Field(rec, DepartmentField);
      var salary :- Field(rec, SalaryField);
      var idText :- AsText(id, IdField);
      var nameText :- AsText(name, NameField);
      var departmentText :- AsText(department, DepartmentField);
      var e :- NewFullTime(idText, nameText, departmentText, salary);
      Success(Some(e))
    else if rec[TypeField] == Str(PartTimeTag) then
      var id :- Field(rec, IdField);
      var name :- Field(rec, NameField);
      var department :- Field(rec, DepartmentField);
      var rate :- Field(rec, RateField);
      var hours :- Field(rec, HoursField);
      var idText :- AsText(id, IdField);
      var nameText :- AsText(name, NameField);
      var departmentText :- AsText(department, DepartmentField);
      var e :- NewPartTime(idText, nameText, departmentText, rate, hours);
      Success(Some(e))
    else if rec[TypeField] == Str(ManagerTag) then
      var id :- Field(rec, IdField);
      var name :- Field(rec, NameField);
      var department :- Field(rec, DepartmentField);
      var salary :- Field(rec, SalaryField);
      var bonus :- Field(rec, BonusField);
      var idText :- AsText(id, IdField);
      var nameText :- AsText(name, NameField);
      var departmentText :- AsText(department, DepartmentField);
      var e :- NewManager(idText, nameText, departmentText, salary, bonus);
      Success(Some(e))
    else
      Success(None)
  }

  /** The dispatch never skips a record whose discriminator names a
      variant, and a rebuilt employee holds exactly the record's amounts. */
  lemma FromRecordKeepsAmounts(rec: Record)
    ensures TypeField in rec && KnownTag(rec[TypeField]) ==> FromRecord(rec) != Success(None)
    ensures FromRecord(rec).Success? && FromRecord(rec).value.Some? ==>
      var e := FromRecord(rec).value.value;
      && (e.FullTime? ==> SalaryField in rec && rec[SalaryField] == Num(e.monthlySalary))
      && (e.PartTime? ==>
            && RateField in rec && rec[RateField] == Num(e.hourlyRate)
            && HoursField in rec && rec[HoursField] == Num(e.hoursPerMonth))
      && (e.Manager? ==>
            && SalaryField in rec && rec[SalaryField] == Num(e.monthlySalary)
            && BonusField in rec && rec[BonusField] == Num(e.bonus))
  {
  }

  /** A record whose discriminator names a variant is accepted exactly when
      its identity fields are present as text and the variant's amounts are
      present as non-negative numbers; any other field is ignored. */
  lemma FromRecordAccepts(rec: Record)
    requires TypeField in rec && KnownTag(rec[TypeField])
    ensures FromRecord(rec).Success? <==>
      && IdField in rec && rec[IdField].Str?
      && NameField in rec && rec[NameField].Str?
      && DepartmentField in rec && rec[DepartmentField].Str?
      && (rec[TypeField] == Str(FullTimeTag) ==>
            SalaryField in rec && NonNegative(rec[SalaryField]))
      && (rec[TypeField] == Str(PartTimeTag) ==>
            RateField in rec && NonNegative(rec[RateField]) &&
            HoursField in rec && NonNegative(rec[HoursField]))
      && (rec[TypeField] == Str(ManagerTag) ==>
            SalaryField in rec && NonNegative(rec[SalaryField]) &&
            BonusField in rec && NonNegative(rec[BonusField]))
  {
  }

  /** Reconstructing a valid employee from its own record gives back the same
      variant with identical fields, hence the same salary. */
  lemma RecordRoundTrip(e: Employee)
    requires Valid(e)
    ensures FromRecord(ToRecord(e)) == Success(Some(e))
    ensures Salary(FromRecord(ToRecord(e)).value.value) == Salary(e)
  {
  }

  /** The round trip needs validity: an employee holding a negative amount
      serialises to a record whose reconstruction raises instead. */
  lemma InvalidRecordRaises(e: Employee)
    requires !Valid(e)
    ensures FromRecord(ToRecord(e)).Failure?
    ensures FromRecord(ToRecord(e)).error.ValueError?
  {
  }
}

=== FILE: scenarios.dfy ===
/** End-to-end behaviour of the store across operations and reloads: what a
    caller observes after adding, removing, saving and reopening. */
module Scenarios {
  import opened Wrappers
  import opened Employees
  import opened CompanyStore

  /** After a successful add, reopening the company from the file the add
      wrote finds the new employee with identical fields and salary. */
  lemma AddThenReopen(c: Company, disk: Disk, e: Employee)
    requires Inv(c) && Valid(e)
    requires AddEmployee(c, disk, e).ok
    ensures
      var step := AddEmployee(c, disk, e);
      && Open(step.disk, c.name) == Success(step.company)
      && Find(Open(step.disk, c.name).value, e.id) == Some(e)
  {
    var step := AddEmployee(c, disk, e);
    OpenAfterSave(disk, step.company);
  }

  /** After a successful remove, reopening the company no longer finds the id. */
  lemma RemoveThenReopen(c: Company, disk: Disk, id: string)
    requires Inv(c)
    requires RemoveEmployee(c, disk, id).ok
    ensures
      var step := RemoveEmployee(c, disk, id);
      && Open(step.disk, c.name) == Success(step.company)
      && Find(Open(step.disk, c.name).value, id).None?
  {
    var step := RemoveEmployee(c, disk, id);
    OpenAfterSave(disk, step.company);
  }

  /** Two companies share one file: whatever one company adds, the other
      company reloads exactly the employees it saved. */
  lemma OtherCompanySurvivesAdd(disk: Disk, beta: Company, acme: Company, e: Employee)
    requires Inv(beta) && acme.name != beta.name
    ensures
      var saved := Some(Save(disk, beta));
      Open(AddEmployee(acme, saved, e).disk, beta.name) == Success(beta)
  {
    var saved := Some(Save(disk, beta));
    OpenAfterSave(disk, beta);
    var step := AddEmployee(acme, saved, e);
    if step.ok {
      LoadIsolation(saved, step.company, beta.name);
    }
  }

  /** Two holders of the same company, both opened before either saves: the
      second holder's save writes its whole in-memory mapping over the slice
      the first one wrote, so the first holder's new employee is lost. */
  lemma StaleHolderOverwrites(c: Company, disk: Disk, x: Employee, y: Employee)
    requires Inv(c) && Valid(x) && Valid(y)
    requires x.id !in Ids(c.employees) && y.id !in Ids(c.employees) && x.id != y.id
    ensures
      var first := AddEmployee(c, disk, x);
      var second := AddEmployee(c, first.disk, y);
      && first.ok && second.ok
      && Open(second.disk, c.name) == Success(Company(c.name, c.employees + [y]))
      && Find(Open(second.disk, c.name).value, x.id).None?
  {
    var first := AddEmployee(c, disk, x);
    var second := AddEmployee(c, first.disk, y);
    OpenAfterSave(first.disk, second.company);
    assert Ids(c.employees + [y]) == Ids(c.employees) + {y.id} by {
      AddFresh(c, first.disk, y);
    }
  }

  /** The same isolation for a remove in the other company. */
  lemma OtherCompanySurvivesRemove(disk: Disk, beta: Company, acme: Company, id: string)
    requires Inv(beta) && acme.name != beta.name
    ensures
      var saved := Some(Save(disk, beta));
      Open(RemoveEmployee(acme, saved, id).disk, beta.name) == Success(beta)
  {
    var saved := Some(Save(disk, beta));
    OpenAfterSave(disk, beta);
    var step := RemoveEmployee(acme, saved, id);
    if step.ok {
      LoadIsolation(saved, step.company, beta.name);
    }
  }

  /** Three employees with distinct ids added one after another to an empty
      company: every add succeeds and the payroll is the sum of the three
      salaries. */
  lemma PayrollOfThreeAdds(c: Company, disk: Disk, a: Employee, b: Employee, m: Employee)
    requires c.employees == []
    requires a.id != b.id && a.id != m.id && b.id != m.id
    ensures
      var s1 := AddEmployee(c, disk, a);
      var s2 := AddEmployee(s1.company, s1.disk, b);
      var s3 := AddEmployee(s2.company, s2.disk, m);
      && s1.ok && s2.ok && s3.ok
      && Payroll(s3.company.employees) == Salary(a) + Salary(b) + Salary(m)
  {
    assert Payroll(c.employees) == 0.0;
    assert Ids(c.employees) == {};
    var s1 := AddEmployee(c, disk, a);
    AddFresh(c, disk, a);
    var s2 := AddEmployee(s1.company, s1.disk, b);
    AddFresh(s1.company, s1.disk, b);
    var s3 := AddEmployee(s2.company, s2.disk, m);
    AddFresh(s2.company, s2.disk, m);
  }

  /** One add of a fresh id: it succeeds, appends the employee, adds its id,
      and raises the payroll by its salary. */
  lemma AddFresh(c: Company, disk: Disk, e: Employee)
    requires e.id !in Ids(c.employees)
    ensures AddEmployee(c, disk, e).ok
    ensures AddEmployee(c, disk, e).company.employees == c.employees + [e]
    ensures Ids(AddEmployee(c, disk, e).company.employees) == Ids(c.employees) + {e.id}
    ensures Payroll(AddEmployee(c, disk, e).company.employees) == Payroll(c.employees) + Salary(e)
  {
    PayrollAfterAdd(c, disk, e);
  }

  /** Alice (full time, 50000), Bob (part time, 200 an hour for 80 hours)
      and Cara (manager, 60000 plus a 5000 bonus) added to a new company:
      every add succeeds and the total payroll is 131000. */
  lemma ThreeVariantPayroll(disk: Disk)
    ensures
      var alice := NewFullTime("E1", "Alice", "Eng", Num(50000.0));
      var bob := NewPartTime("E2", "Bob", "Ops", Num(200.0), Num(80.0));
      var cara := NewManager("E3", "Cara", "Eng", Num(60000.0), Num(5000.0));
      && alice.Success? && bob.Success? && cara.Success?
      && var s1 := AddEmployee(Company("Acme", []), disk, alice.value);
         var s2 := AddEmployee(s1.company, s1.disk, bob.value);
         var s3 := AddEmployee(s2.company, s2.disk, cara.value);
         && s1.ok && s2.ok && s3.ok
         && Payroll(s3.company.employees) == 131000.0
  {
    var alice := NewFullTime("E1", "Alice", "Eng", Num(50000.0)).value;
    var bob := NewPartTime("E2", "Bob", "Ops", Num(200.0), Num(80.0)).value;
    var cara := NewManager("E3", "Cara", "Eng", Num(60000.0), Num(5000.0)).value;
    assert Salary(alice) == 50000.0 && Salary(bob) == 16000.0 && Salary(cara) == 65000.0;
    PayrollOfThreeAdds(Company("Acme", []), disk, alice, bob, cara);
  }

  /** A slice holding a record of an unknown kind ahead of a valid one loads
      the valid one alone, without raising. */
  lemma UnknownTypeSkipped(doc: Document, e: Employee)
    requires Valid(e)
    ensures
      var intern := map[TypeField := Str("Intern"), IdField := Str("X9")];
      Open(Some(doc["Acme" := [("X9", intern), (e.id, ToRecord(e))]]), "Acme") == Success(Company("Acme", [e]))
  {
    var intern := map[TypeField := Str("Intern"), IdField := Str("X9")];
    LoadSkipsUnknown([], "X9", intern, [(e.id, ToRecord(e))], []);
    assert [] + [("X9", intern)] + [(e.id, ToRecord(e))] == [("X9", intern), (e.id, ToRecord(e))];
    assert [] + [(e.id, ToRecord(e))] == Serialise([e]);
    LoadSerialised([e], []);
    assert [] + [e] == [e];
    var doc' := doc["Acme" := [("X9", intern), (e.id, ToRecord(e))]];
    assert Load(Some(doc'), "Acme") == LoadRecords([("X9", intern), (e.id, ToRecord(e))], []);
  }
}

=== FILE: wrappers.dfy ===
/** Failure-compatible datatypes used throughout the model: `Option` for an
    absent value and `Result` for an operation that can raise. */
module Wrappers {

  datatype Option<+T> = None | Some(value: T)

  /** A value or the error an operation raised instead; usable with `:-`. */
  datatype Result<+T, +E> = Success(value: T) | Failure(error: E) {

    predicate IsFailure() {
      Failure?
    }

    function PropagateFailure<U>(): Result<U, E>
      requires Failure?
    {
      Failure(error)
    }

    function Extract(): T
      requires Success?
    {
      value
    }
  }
}
